=== FILE: README.md ===
# Projects-List: a Dafny model of the project store, its views and its form

The repository is a small browser widget for tracking projects. Users add
projects through a form. The projects appear in two lists, "active" and
"finished", and can be dragged from one list to the other. This project
models the widget's sequential logic as pure functions over immutable values.
It proves what each operation does and what it leaves alone.

- **Project store** (`ProjectState`, project_state.dfy). The state is a
  sequence of projects and a sequence of listener ids. `AddListener`,
  `AddProject` and `MoveProject` each return the new store and a notification
  trace. A trace is the sequence of (listener, snapshot) calls that
  `updateListeners` makes. `GetInstance` models the singleton accessor over a
  registry that holds at most one store.
- **Validation** (`Validation`, validation.dfy). `Validate` follows the
  `validate` function one `if` at a time. `Satisfies` states the same rule one
  constraint at a time, and the contract of `Validate` says the two agree. The JavaScript
  details the rule depends on live in `JsText` (js_text.dfy): the characters
  `trim` strips, `length` counted in UTF-16 code units, and the decimal
  rendering of an integer.
- **Form** (`ProjectInput`, project_input.dfy). This holds the three fixed rule
  sets, `gatherUserInput` and `submitHandler`.
- **List views** (`ProjectList`, project_list.dfy). It covers the status filter
  of each list's listener, the type-to-status mapping of `dropHandler` and the
  list's `assignedProjects`. The `persons` label is in `ProjectItem`
  (project_item.dfy).
- **The page** (`App`, app.dfy). It puts together the store, the form and the
  two lists as the end of src/app.ts builds them. It hands every notification
  to the view that registered the listener. `Edit` stands for the user typing into the form and `Apply` dispatches one
  user event (an edit, a submission or a drop) to the matching operation. It
  proves that, whatever the user does, every list shows exactly the store's
  projects of its status, in store order.

Project ids are drawn with `Math.random().toString()` and never checked, so
the model takes the id from the caller and claims no uniqueness.
`moveProject` acts on the first project with a matching id.

src/app.ts holds a second copy of the store, the list and the form
(src/app.ts:43-88, 238-413). That copy is identical to the component files, so
it is modelled once.

## Model

| member | source | states |
|---|---|---|
| ProjectState.AddListener | src/state/project-state.ts:10-12 | The listener is appended at the end, with no de-duplication. The projects are untouched and nobody is notified. |
| ProjectState.GetInstance | src/state/project-state.ts:24-30 | The first call creates an empty store and keeps it. Any later call returns the held store and leaves the registry unchanged. |
| ProjectState.GetInstanceIdempotent | src/state/project-state.ts:24-30 | A second call returns the same instance as the first and changes nothing. |
| ProjectState.UpdateListeners | src/state/project-state.ts:54-59 | The trace is one round: every listener is called once, in registration order, and each receives the current project sequence. |
| ProjectState.FindFirst | src/state/project-state.ts:46 | The result is the position of the first project with the id, or None exactly when no project has that id. |
| ProjectState.AddProject | src/state/project-state.ts:32-42 | The sequence grows by exactly one. Earlier projects are unchanged. The new last project is Active and carries the given id, title, description and people. The listeners are unchanged. Exactly one round follows, carrying the grown sequence. |
| ProjectState.MoveProject | src/state/project-state.ts:45-51 | An unknown id, or a first match that already has the status, leaves the store unchanged and sends nothing. Otherwise only the first match's status changes (length, order, other fields and other projects stay the same), and one round follows with the new sequence. |
| ProjectState.MoveNotifiesIffChanged | src/state/project-state.ts:46-50 | The store changes exactly when some first match has a different status, and an unchanged store means no notification. |
| ProjectState.MovedSnapshotHasNewStatus | src/state/project-state.ts:47-49 | After a move of an existing id, the moved entry has the requested status, and every snapshot sent equals the new sequence. |
| JsText.Trim | src/app.ts:107 | The result is a slice of the input between a blank prefix and a blank suffix. It is empty exactly when the input is all JavaScript whitespace, and otherwise it neither starts nor ends with whitespace. |
| JsText.TrimStart | src/app.ts:107 | The result is a suffix of the input. Only whitespace was dropped, and the result does not start with whitespace. |
| JsText.TrimEnd | src/app.ts:107 | The result is a prefix of the input. Only whitespace was dropped, and the result does not end with whitespace. |
| JsText.Utf16Length | src/app.ts:114 | A string's `length` lies between its code-point count and twice that count, equals the code-point count when no character lies beyond the Basic Multilingual Plane, and is 2 for a single character beyond it. |
| JsText.Utf16LengthConcat | src/app.ts:114 | The `length` of a concatenation is the sum of the lengths. |
| JsText.NatToDecimal | src/app.ts:203 | A natural number is rendered as at least one digit with no leading zero (a positive number never starts with "0"), and the digits denote the number. |
| JsText.IntToString | src/app.ts:203 | An integer's rendering is canonical: a minus sign exactly when the integer is negative, then digits with no leading zero. It reads back as the same integer and is never blank. |
| JsText.CanonicalIsRendering | src/app.ts:203 | Every canonical decimal string is the rendering of the integer it denotes, so the rendering is the only canonical form ("07" and "-0" are never produced). |
| JsText.IntToStringInjective | src/app.ts:203 | Distinct integers render differently. |
| Validation.Validate | src/app.ts:103-136 | `validate` accepts exactly when all applicable checks hold. A required value must be non-blank after trimming. minLength/maxLength are inclusive and apply to the untrimmed string only. min/max are inclusive and apply to numbers only. |
| Validation.UnconstrainedIsValid | src/app.ts:103-135 | With no constraint set, every value is valid. |
| Validation.RequiredRejectsExactlyBlank | src/app.ts:106-108 | `required` rejects a whitespace-only string and nothing else: on a non-blank string or a number, the verdict is the same as without `required`. |
| Validation.TighteningNeverAccepts | src/app.ts:104-135 | Adding or tightening constraints on the same value can never turn a rejection into an acceptance. |
| ProjectItem.Persons | src/app.ts:199-205 | The label is "1 person" exactly when people is 1. Otherwise it is the count followed by " people"; the count is canonical decimal, starts with a minus sign exactly for a negative count, and reads back as people. |
| ProjectList.StatusFor | src/components/project-list.ts:33-40 | A drop on the "active" list requests Active, and a drop on the "finished" list requests Finished. |
| ProjectList.Keeps | src/components/project-list.ts:54-59 | A list's filter keeps a project exactly when the project has the status a drop on that list requests. |
| ProjectList.KeptByExactlyOneList | src/components/project-list.ts:54-59 | Every project is kept by exactly one of the two lists. |
| ProjectList.Relevant | src/components/project-list.ts:54-59 | A project is in the filtered list exactly when it is in the snapshot and matches the list type. |
| ProjectList.RelevantIsSubsequence | src/components/project-list.ts:54-60 | The filtered list is an order-preserving subsequence of the snapshot. |
| ProjectList.RelevantAppend | src/components/project-list.ts:54-59 | Filtering a snapshot with one more project at the end adds that project at the end exactly when the list keeps it. |
| ProjectList.RelevantCounts | src/components/project-list.ts:54-59 | The filter keeps every occurrence of a project it keeps and no occurrence of a project it drops. |
| ProjectList.RelevantPartitions | src/components/project-list.ts:54-59 | The active and finished views of one snapshot partition it: as multisets they add up to the snapshot. |
| ProjectList.NewProjectList | src/components/project-list.ts:17 | `assignedProjects` starts empty. |
| ProjectList.Receive | src/components/project-list.ts:52-63 | After a notification, `assignedProjects` holds exactly the snapshot entries whose status matches the list type, in snapshot order, each as many times as the snapshot holds it (duplicates kept, as `filter` keeps them). |
| ProjectList.ReceiveForgetsPrevious | src/components/project-list.ts:60 | Each notification replaces `assignedProjects` wholesale: the result depends on the snapshot alone. |
| ProjectList.Drop | src/components/project-list.ts:33-40 | A drop calls `moveProject` with the dragged id and the list's status. When the id exists, the moved project is then among the projects that list keeps. |
| ProjectInput.TitleRule | src/components/project-input.ts:50-54 | The title rule set validates the title and accepts exactly a non-blank title of at most 20 characters. |
| ProjectInput.DescriptionRule | src/components/project-input.ts:55-59 | The description rule set validates the description and accepts exactly a non-blank description of at least 5 characters. |
| ProjectInput.PeopleRule | src/components/project-input.ts:60-65 | The people rule set validates the count and accepts exactly 1 to 10 inclusive. |
| ProjectInput.GatherUserInput | src/components/project-input.ts:44-78 | The fields come back unchanged exactly when all three rule sets pass, and nothing comes back otherwise. |
| ProjectInput.ClearInputs | src/components/project-input.ts:81-85 | All three fields become empty (people reads as 0), and cleared fields never pass the rule sets. |
| ProjectInput.SubmitHandler | src/components/project-input.ts:88-102 | A project with the gathered values is added, with one round sent, exactly when the input is accepted, and the fields are then cleared. An invalid submission changes nothing and leaves the fields as they were. |
| App.Deliver | src/state/project-state.ts:54-59 | Delivering notifications keeps the same set of views, and each view keeps its list type. |
| App.DeliverRound | src/state/project-state.ts:54-59 | After one round, every view whose listener took part shows the snapshot's relevant projects. Every other view is untouched. |
| App.RoundSyncs | src/components/project-list.ts:52-63 | A round carrying the store's current projects, sent to all registered listeners, brings every view in line with the store. |
| App.FreshListener | src/components/project-list.ts:52 | Each list registers a new closure: its id differs from every listener already registered. |
| App.AddList | src/components/project-list.ts:15-21 | A new list appends one new listener, distinct from every registered one, and starts empty. Every existing view, the projects and the form are untouched. The page stays in sync exactly when the store holds no project of that list's status. |
| App.Start | src/app.ts:415-417 | The built page has an empty store and listeners 0 ("active") and 1 ("finished"), and it is in sync. |
| App.Edit | src/components/project-input.ts:46-48 | Typing changes only the form fields that `gatherUserInput` later reads; the store and the views are untouched, so the page stays in sync. |
| App.Submit | src/components/project-input.ts:88-102 | A submission adds one project exactly when the input is accepted and then clears the form; an invalid submission changes nothing. Every view stays in sync. |
| App.SubmitAppends | src/components/project-input.ts:91-97 | An accepted submission appends exactly one project: Active, carrying the form's title, description and people. |
| App.SubmittedProjectIsShownActive | src/app.ts:281-291 | After an accepted submission, the new project is last in every active list and absent from every finished list. |
| App.DropOn | src/app.ts:262-269 | A drop leaves the store as `moveProject` with the dragged id and the list's status makes it, so the number of projects is unchanged, and keeps the form and every view in sync. |
| App.Apply | src/components/project-input.ts:37-40 | One user event goes to its handler (the form's submit listener registered here, and likewise the list's drop listener at src/components/project-list.ts:50). Each keeps the views in sync, keeps every view and never shrinks the store. |
| App.Run | src/app.ts:415-417 | Any sequence of edits, submissions and drops keeps the views in sync, never removes a view and never shrinks the store. |
| App.ViewsAlwaysMatchStore | src/app.ts:281-291 | From the built page, after any user events, every list shows exactly the store's projects of its status, in store order. |
| App.SyncedListsPartitionStore | src/app.ts:283-288 | On a page in sync, an "active" list and a "finished" list together show every project of the store exactly once. |

## Left out

- DOM template cloning and attachment (src/components/base-component.ts) and rendering: these are browser API glue. The same goes for `renderContent`, `renderProjects` and the "assigned" suffix of an item's heading.
- Drag event wiring (`dragStartHandler` setting the id, `dragOverHandler`'s type check, `dragLeaveHandler`), CSS class toggling, `alert` and `console.log`: these are I/O side effects. The dragged id is a parameter of `Drop`.
- The `autobind` decorator (src/decorators/autobind.ts): it only binds a method's receiver and has no behaviour to model.
- webpack.config.js: build configuration.
- Id generation by `Math.random().toString()`: this is nondeterministic floating point. The id is a parameter of `AddProject`, and the model never claims ids are unique.
- The numeric coercion `+enteredPeople` and non-integral numbers: NaN, fractions and infinities are floating point. People counts and the numeric constraints are integers. A cleared people field is held as 0, the value of `+""`.
- IntToString: renders every integer in plain decimal. JavaScript switches to exponent notation from 1e21 on, far beyond any count the form accepts.
- The validation utility module imported by src/components/project-input.ts is not part of this model. It is taken to behave like `validate` at src/app.ts:103-136.
- Snapshot aliasing: the source copies only the array, so delivered lists share `Project` objects with the store. A status change is therefore visible through a previously delivered list before the next round arrives. The model's snapshots are immutable values, so an observer can never affect the store through one.
- Listener failures: the source has no error isolation between listeners. Modelled listeners are the two list views, which cannot fail. A listener id with no view has no effect in `Deliver`.
- App.Deliver: its own contract only keeps the set of views and their types. What a round does to the views' contents is stated by `App.DeliverRound`.

=== FILE: app.dfy ===
/** The page assembled at the end of src/app.ts: the store, the input form and
    the two list views, each view registered as one listener of the store.
    Notifications the store sends are handed to the views in order; the
    invariant proved here is that every view then shows exactly the projects
    of its status. */
module App {
  import opened Optional
  import opened ProjectModel
  import opened ProjectState
  import opened ProjectList
  import opened ProjectInput

  /** The page: the store, the list views by the listener they registered,
      and the form's current fields. */
  datatype Widget = Widget(store: Store, views: map<ListenerId, ListView>, form: FormFields)

  /** Runs the notifications of `trace` in order: each one reaches the view
      whose listener it names. A listener without a view has no effect here. */
  function Deliver(views: map<ListenerId, ListView>, trace: seq<Notification>): (r: map<ListenerId, ListView>)
    ensures r.Keys == views.Keys
    ensures forall l | l in views :: r[l].kind == views[l].kind
  {
    if |trace| == 0 then views
    else
      var n := trace[0];
      var next :=
        if n.listener in views then views[n.listener := Receive(views[n.listener], n.snapshot)] else views;
      Deliver(next, trace[1..])
  }

  /** After one notification round every view whose listener took part shows
      the snapshot's relevant projects, and every other view is untouched. */
  lemma {:induction false} DeliverRound(
    views: map<ListenerId, ListView>, trace: seq<Notification>,
    listeners: seq<ListenerId>, snapshot: seq<Project>)
    requires IsRound(trace, listeners, snapshot)
    ensures forall l | l in views ::
              Deliver(views, trace)[l] == if l in listeners then Receive(views[l], snapshot) else views[l]
  {
    if |trace| > 0 {
      var head := listeners[0];
      assert trace[0] == Notification(head, snapshot);
      var next := if head in views then views[head := Receive(views[head], snapshot)] else views;
      assert IsRound(trace[1..], listeners[1..], snapshot);
      DeliverRound(next, trace[1..], listeners[1..], snapshot);
      forall l | l in views
        ensures Deliver(views, trace)[l] == if l in listeners then Receive(views[l], snapshot) else views[l]
      {
        assert listeners == [head] + listeners[1..];
        if l == head {
          ReceiveForgetsPrevious(views[l], views[l], snapshot);
        }
      }
    }
  }

  /** Every view is registered with the store and shows exactly the store's
      projects of its status, in the store's order. */
  predicate Synced(w: Widget) {
    forall l | l in w.views ::
      && l in w.store.listeners
      && w.views[l].assignedProjects == Relevant(w.store.projects, w.views[l].kind)
  }

  /** A round sent by the store to all its listeners with its current projects
      brings every view in line. */
  lemma RoundSyncs(w: Widget, trace: seq<Notification>)
    requires forall l | l in w.views :: l in w.store.listeners
    requires IsRound(trace, w.store.listeners, w.store.projects)
    ensures Synced(Widget(w.store, Deliver(w.views, trace), w.form))
  {
    DeliverRound(w.views, trace, w.store.listeners, w.store.projects);
  }

  /** An id no listener in `listeners` has: each list registers its own new
      closure, which is never one already registered. */
  function FreshListener(listeners: seq<ListenerId>): (id: ListenerId)
    ensures forall l | l in listeners :: l < id
    ensures |listeners| == 0 ==> id == 0
  {
    if |listeners| == 0 then 0
    else
      var rest := FreshListener(listeners[..|listeners| - 1]);
      var last := listeners[|listeners| - 1];
      assert listeners == listeners[..|listeners| - 1] + [last];
      if last < rest then rest else last + 1
  }

  /** `new ProjectList(kind)`: registers a listener under a new id and shows
      nothing yet; every existing view and the form are untouched. The page
      stays in sync exactly when the store holds no project of that list's
      status; a list built later than the projects it should show stays empty
      until the next notification. */
  function AddList(w: Widget, kind: ListType): (r: Widget)
    ensures r.store.projects == w.store.projects && r.form == w.form
    ensures |r.store.listeners| == |w.store.listeners| + 1
    ensures r.store.listeners[..|w.store.listeners|] == w.store.listeners
    ensures var id := r.store.listeners[|w.store.listeners|];
      && id !in w.store.listeners
      && r.views.Keys == w.views.Keys + {id}
      && r.views[id] == NewProjectList(kind)
      && (forall l | l in w.views && l != id :: r.views[l] == w.views[l])
      && ((forall l | l in w.views :: l in w.store.listeners) ==> id !in w.views)
    ensures Synced(w) ==> (Synced(r) <==> Relevant(w.store.projects, kind) == [])
  {
    var id := FreshListener(w.store.listeners);
    var step := AddListener(w.store, id);
    var r := Widget(step.store, w.views[id := NewProjectList(kind)], w.form);
    assert r.views[id].assignedProjects == [];
    r
  }

  /** The page as the script builds it: the single store (empty on first
      use), the input form, then the "active" and the "finished" list, in
      that order. `form` stands for the fields' initial contents. */
  function Start(form: FormFields): (w: Widget)
    ensures Synced(w)
    ensures w.store.projects == [] && w.store.listeners == [0, 1]
    ensures w.views.Keys == {0, 1}
    ensures w.views[0].kind == ActiveList && w.views[1].kind == FinishedList
    ensures w.form == form
  {
    var (_, store) := GetInstance(Registry(None));
    var w0 := Widget(store, map[], form);
    AddList(AddList(w0, ActiveList), FinishedList)
  }

  /** The user edits the form. */
  function Edit(w: Widget, fields: FormFields): (r: Widget)
    ensures r.store == w.store && r.views == w.views && r.form == fields
    ensures Synced(w) ==> Synced(r)
  {
    w.(form := fields)
  }

  /** A form submission, its notifications delivered to the views. */
  function Submit(w: Widget, newId: string): (r: Widget)
    ensures r.views.Keys == w.views.Keys
    ensures Accepted(w.form) ==> |r.store.projects| == |w.store.projects| + 1
    ensures !Accepted(w.form) ==> r == w
    ensures Accepted(w.form) ==> r.form == ClearInputs(w.form)
    ensures Synced(w) ==> Synced(r)
  {
    var sub := SubmitHandler(w.store, w.form, newId);
    var r := Widget(sub.store, Deliver(w.views, sub.trace), sub.fields);
    if Synced(w) && Accepted(w.form) then
      RoundSyncs(Widget(sub.store, w.views, sub.fields), sub.trace);
      r
    else
      r
  }

  /** An accepted submission appends exactly the gathered project. */
  lemma SubmitAppends(w: Widget, newId: string)
    requires Accepted(w.form)
    ensures Submit(w, newId).store.projects
            == w.store.projects + [Project(newId, w.form.title, w.form.description, w.form.people, Active)]
  {
  }

  /** An accepted submission shows the new project at the end of every
      "active" list and in no "finished" list. */
  lemma SubmittedProjectIsShownActive(w: Widget, newId: string)
    requires Synced(w) && Accepted(w.form)
    ensures var r := Submit(w, newId);
      var p := Project(newId, w.form.title, w.form.description, w.form.people, Active);
      forall l | l in r.views ::
        (r.views[l].kind == ActiveList ==> |r.views[l].assignedProjects| > 0 && Last(r.views[l].assignedProjects) == p)
        && (r.views[l].kind == FinishedList ==> p !in r.views[l].assignedProjects)
  {
    var r := Submit(w, newId);
    var p := Project(newId, w.form.title, w.form.description, w.form.people, Active);
    var ps := w.store.projects;
    SubmitAppends(w, newId);
    assert Synced(r) && r.store.projects == ps + [p];
    forall l | l in r.views
      ensures r.views[l].kind == ActiveList ==> |r.views[l].assignedProjects| > 0 && Last(r.views[l].assignedProjects) == p
      ensures r.views[l].kind == FinishedList ==> p !in r.views[l].assignedProjects
    {
      var kind := r.views[l].kind;
      assert r.views[l].assignedProjects == Relevant(ps + [p], kind);
      RelevantAppend(ps, p, kind);
      if kind == FinishedList {
        assert !Keeps(kind, p);
        assert p !in Relevant(ps, kind);
      }
    }
  }

  function Last<T>(s: seq<T>): T
    requires |s| > 0
  {
    s[|s| - 1]
  }

  /** A drop on a list of type `kind`, its notifications delivered: the
      store becomes what `moveProject` makes of it. */
  function DropOn(w: Widget, kind: ListType, draggedId: string): (r: Widget)
    ensures r.store == MoveProject(w.store, draggedId, StatusFor(kind)).store
    ensures r.views.Keys == w.views.Keys && r.form == w.form
    ensures |r.store.projects| == |w.store.projects|
    ensures Synced(w) ==> Synced(r)
  {
    var step := Drop(w.store, kind, draggedId);
    var r := Widget(step.store, Deliver(w.views, step.trace), w.form);
    MoveNotifiesIffChanged(w.store, draggedId, StatusFor(kind));
    if Synced(w) && step.store != w.store then
      RoundSyncs(Widget(step.store, w.views, w.form), step.trace);
      r
    else
      r
  }

  /** What the user can do once the page is built. */
  datatype Event = EditForm(fields: FormFields) | SubmitForm(newId: string) | DropOnList(kind: ListType, draggedId: string)

  /** One user event: the page changes only through the operations above, so
      it stays in sync and the store never shrinks. */
  function Apply(w: Widget, e: Event): (r: Widget)
    ensures Synced(w) ==> Synced(r)
    ensures r.views.Keys == w.views.Keys
    ensures |r.store.projects| >= |w.store.projects|
  {
    match e
    case EditForm(fields) => Edit(w, fields)
    case SubmitForm(newId) => Submit(w, newId)
    case DropOnList(kind, draggedId) => DropOn(w, kind, draggedId)
  }

  /** Runs a sequence of user events. The views stay in sync throughout, and
      the store only ever grows. */
  function Run(w: Widget, events: seq<Event>): (r: Widget)
    ensures Synced(w) ==> Synced(r)
    ensures r.views.Keys == w.views.Keys
    ensures |r.store.projects| >= |w.store.projects|
    decreases |events|
  {
    if |events| == 0 then w else Run(Apply(w, events[0]), events[1..])
  }

  /** From the start page, whatever the user does, every list shows exactly
      the store's projects of its status. */
  lemma ViewsAlwaysMatchStore(form: FormFields, events: seq<Event>)
    ensures Synced(Run(Start(form), events))
  {
  }

  /** On a page in sync, an "active" and a "finished" list together show
      every project of the store exactly once. */
  lemma {:induction false} SyncedListsPartitionStore(w: Widget, a: ListenerId, f: ListenerId)
    requires Synced(w)
    requires a in w.views && w.views[a].kind == ActiveList
    requires f in w.views && w.views[f].kind == FinishedList
    ensures multiset(w.views[a].assignedProjects) + multiset(w.views[f].assignedProjects)
            == multiset(w.store.projects)
  {
    RelevantPartitions(w.store.projects);
  }
}

=== FILE: js_text.dfy ===
/** The parts of JavaScript's string and number semantics that the form
    validation and the item label depend on: `String.prototype.trim`, the
    `length` of a string (UTF-16 code units) and the decimal rendering of an
    integral number by `toString` or a template literal. */
module JsText {
  import opened Optional

  /** The characters `trim` strips: ECMAScript's WhiteSpace and
      LineTerminator productions. */
  predicate IsJsWhitespace(c: char) {
    || c == '\t' || c == '\n' || c == '\U{000B}' || c == '\U{000C}' || c == '\r'
    || c == ' ' || c == '\U{00A0}' || c == '\U{1680}'
    || ('\U{2000}' <= c <= '\U{200A}')
    || c == '\U{2028}' || c == '\U{2029}' || c == '\U{202F}' || c == '\U{205F}'
    || c == '\U{3000}' || c == '\U{FEFF}'
  }

  /** A string made of whitespace only (the empty string included). */
  predicate IsBlank(s: string) {
    forall i | 0 <= i < |s| :: IsJsWhitespace(s[i])
  }

  /** Drops leading whitespace: the result is a suffix of `s`, everything
      dropped was whitespace, and the result does not start with whitespace. */
  function TrimStart(s: string): (r: string)
    ensures |r| <= |s| && r == s[|s| - |r|..]
    ensures IsBlank(s[..|s| - |r|])
    ensures |r| > 0 ==> !IsJsWhitespace(r[0])
  {
    if |s| > 0 && IsJsWhitespace(s[0]) then
      var t := s[1..];
      var r := TrimStart(t);
      assert s[|s| - |r|..] == t[|t| - |r|..];
      forall i | 0 <= i < |s| - |r|
        ensures IsJsWhitespace(s[i])
      {
        if i > 0 {
          assert s[i] == t[..|t| - |r|][i - 1];
        }
      }
      r
    else
      s
  }

  /** Drops trailing whitespace: the result is a prefix of `s`, everything
      dropped was whitespace, and the result does not end with whitespace. */
  function TrimEnd(s: string): (r: string)
    ensures |r| <= |s| && r == s[..|r|]
    ensures IsBlank(s[|r|..])
    ensures |r| > 0 ==> !IsJsWhitespace(r[|r| - 1])
  {
    if |s| > 0 && IsJsWhitespace(s[|s| - 1]) then
      var t := s[..|s| - 1];
      var r := TrimEnd(t);
      assert s[..|r|] == t[..|r|];
      forall i | |r| <= i < |s|
        ensures IsJsWhitespace(s[i])
      {
        if i < |s| - 1 {
          assert s[i] == t[|r|..][i - |r|];
        }
      }
      r
    else
      s
  }

  /** `String.prototype.trim`: the input with its leading and trailing
      whitespace removed and nothing else. The result is empty exactly when
      `s` is blank, and otherwise neither starts nor ends with whitespace. */
  function Trim(s: string): (r: string)
    ensures exists i, j | 0 <= i <= j <= |s| :: r == s[i..j] && IsBlank(s[..i]) && IsBlank(s[j..])
    ensures |r| == 0 <==> IsBlank(s)
    ensures |r| > 0 ==> !IsJsWhitespace(r[0]) && !IsJsWhitespace(r[|r| - 1])
  {
    var t := TrimStart(s);
    var r := TrimEnd(t);
    BlankEnds(s, t, r);
    r
  }

  /** Cutting a blank prefix off `s`, leaving `t`, and then a blank suffix off
      `t`, leaving `r`, cuts `s` down to a slice between two blank ends; the
      slice is empty exactly when `s` is blank, provided `t` does not start
      with whitespace. */
  lemma {:induction false} BlankEnds(s: string, t: string, r: string)
    requires |t| <= |s| && t == s[|s| - |t|..] && IsBlank(s[..|s| - |t|])
    requires |t| > 0 ==> !IsJsWhitespace(t[0])
    requires |r| <= |t| && r == t[..|r|] && IsBlank(t[|r|..])
    requires |r| > 0 ==> !IsJsWhitespace(r[|r| - 1])
    ensures exists i, j | 0 <= i <= j <= |s| :: r == s[i..j] && IsBlank(s[..i]) && IsBlank(s[j..])
    ensures |r| == 0 <==> IsBlank(s)
    ensures |r| > 0 ==> !IsJsWhitespace(r[0])
  {
    var i := |s| - |t|;
    var j := i + |r|;
    assert r == s[i..j];
    assert s[j..] == t[|r|..];
    if |r| == 0 {
      assert |t| == 0;
      assert s == s[..i];
    } else {
      assert r[0] == t[0];
    }
  }

  /** The number of UTF-16 code units of one code point. */
  function Utf16Units(c: char): nat {
    if c as int > 0xFFFF then 2 else 1
  }

  /** JavaScript's `length` of a string: code points beyond the Basic
      Multilingual Plane count twice, all others once. */
  function Utf16Length(s: string): (n: nat)
    ensures |s| <= n <= 2 * |s|
    ensures (forall i | 0 <= i < |s| :: s[i] as int <= 0xFFFF) ==> n == |s|
    ensures |s| == 1 ==> n == Utf16Units(s[0])
  {
    if |s| == 0 then 0 else Utf16Units(s[0]) + Utf16Length(s[1..])
  }

  /** The UTF-16 length of a concatenation is the sum of the lengths, so a
      string's length is the sum of its code points' unit counts. */
  lemma {:induction false} Utf16LengthConcat(a: string, b: string)
    ensures Utf16Length(a + b) == Utf16Length(a) + Utf16Length(b)
  {
    if |a| > 0 {
      assert (a + b)[1..] == a[1..] + b;
      Utf16LengthConcat(a[1..], b);
    } else {
      assert a + b == b;
    }
  }

  predicate IsDigit(c: char) {
    '0' <= c <= '9'
  }

  predicate AllDigits(s: string) {
    forall i | 0 <= i < |s| :: IsDigit(s[i])
  }

  function DigitValue(c: char): (d: nat)
    requires IsDigit(c)
    ensures d < 10
  {
    c as int - '0' as int
  }

  function DigitChar(d: nat): (c: char)
    requires d < 10
    ensures IsDigit(c) && DigitValue(c) == d
  {
    ('0' as int + d) as char
  }

  /** The number a string of decimal digits denotes, most significant first. */
  function DecimalValue(s: string): nat
    requires AllDigits(s)
  {
    if |s| == 0 then 0 else DecimalValue(s[..|s| - 1]) * 10 + DigitValue(s[|s| - 1])
  }

  /** The form JavaScript renders an integral number in: a minus sign
      exactly for negative numbers, then at least one digit, with no leading
      zero (so no "-0" either). */
  predicate IsCanonicalDecimal(s: string) {
    && |s| > 0
    && if s[0] == '-' then |s| > 1 && AllDigits(s[1..]) && s[1] != '0'
       else AllDigits(s) && (|s| > 1 ==> s[0] != '0')
  }

  /** Reads back the decimal rendering of an integer: an optional minus sign
      followed by at least one digit. Anything else is not a rendering. */
  function ParseInt(s: string): Option<int> {
    if |s| > 1 && s[0] == '-' && AllDigits(s[1..]) then
      var magnitude: int := DecimalValue(s[1..]);
      Some(-magnitude)
    else if |s| > 0 && AllDigits(s) then Some(DecimalValue(s))
    else None
  }

  /** The shortest decimal rendering of a natural number: at least one digit,
      no leading zero, and it denotes `n`. */
  function NatToDecimal(n: nat): (r: string)
    ensures |r| >= 1 && AllDigits(r)
    ensures |r| > 1 || n > 0 ==> r[0] != '0'
    ensures DecimalValue(r) == n
  {
    if n < 10 then
      [DigitChar(n)]
    else
      var p := NatToDecimal(n / 10);
      var r := p + [DigitChar(n % 10)];
      assert r[..|r| - 1] == p;
      r
  }

  /** How `toString` and a template literal render an integral number: in
      canonical form, with a minus sign exactly when `n` is negative. The
      rendering reads back as the same number and is never blank. */
  function IntToString(n: int): (r: string)
    ensures IsCanonicalDecimal(r) && (r[0] == '-' <==> n < 0)
    ensures ParseInt(r) == Some(n)
    ensures |r| > 0 && !IsBlank(r)
  {
    if n < 0 then
      var d := NatToDecimal(-n);
      var r := "-" + d;
      assert r[1..] == d;
      assert !IsJsWhitespace(r[1]);
      r
    else
      var r := NatToDecimal(n);
      assert !IsJsWhitespace(r[0]);
      r
  }

  /** A string of digits with a nonzero first digit denotes a positive number. */
  lemma {:induction false} LeadingDigitPositive(s: string)
    requires |s| > 0 && AllDigits(s) && s[0] != '0'
    ensures DecimalValue(s) > 0
  {
    if |s| > 1 {
      LeadingDigitPositive(s[..|s| - 1]);
    }
  }

  /** A canonical string of digits is the rendering of the number it denotes:
      the rendering is the only canonical form of that number. */
  lemma {:induction false} CanonicalNatIsRendering(s: string)
    requires |s| > 0 && AllDigits(s) && (|s| > 1 ==> s[0] != '0')
    ensures NatToDecimal(DecimalValue(s)) == s
  {
    var n := DecimalValue(s);
    var c := s[|s| - 1];
    assert DigitChar(DigitValue(c)) == c;
    if |s| > 1 {
      var p := s[..|s| - 1];
      LeadingDigitPositive(p);
      CanonicalNatIsRendering(p);
      assert n / 10 == DecimalValue(p) && n % 10 == DigitValue(c);
      assert s == p + [c];
    }
  }

  /** Every canonical decimal string is the rendering of the integer it reads
      back as, so `IntToString` yields the one canonical form, "07" and "-0"
      never among them. */
  lemma CanonicalIsRendering(s: string)
    requires IsCanonicalDecimal(s)
    ensures ParseInt(s).Some? && IntToString(ParseInt(s).value) == s
  {
    if s[0] == '-' {
      var d := s[1..];
      CanonicalNatIsRendering(d);
      LeadingDigitPositive(d);
      assert s == "-" + d;
    } else {
      CanonicalNatIsRendering(s);
    }
  }

  /** Distinct integers render differently. */
  lemma IntToStringInjective(m: int, n: int)
    requires IntToString(m) == IntToString(n)
    ensures m == n
  {
  }
}

=== FILE: optional.dfy ===
/** The "value or nothing" wrapper used where the source returns `undefined`
    (a failed `find`, a rejected form) or leaves an optional field unset. */
module Optional {

  datatype Option<+T> = None | Some(value: T)
}

=== FILE: project_input.dfy ===
/** The input form of src/components/project-input.ts: the three fixed rule
    sets, `gatherUserInput` and `submitHandler`. */
module ProjectInput {
  import opened Optional
  import opened JsText
  import opened Validation
  import opened ProjectModel
  import opened ProjectState

  const TitleMaxLength := 20
  const DescriptionMinLength := 5
  const PeopleMin := 1
  const PeopleMax := 10

  /** The current contents of the three input fields. The people field is
      held as the number `+peopleInput.value` denotes. */
  datatype FormFields = FormFields(title: string, description: string, people: int)

  /** The `[title, description, people]` tuple `gatherUserInput` returns. */
  datatype UserInput = UserInput(title: string, description: string, people: int)

  /** The title is not blank and at most 20 characters long (untrimmed). */
  predicate TitleAccepted(title: string) {
    !IsBlank(title) && Utf16Length(title) <= TitleMaxLength
  }

  /** The description is not blank and at least 5 characters long (untrimmed). */
  predicate DescriptionAccepted(description: string) {
    !IsBlank(description) && Utf16Length(description) >= DescriptionMinLength
  }

  /** The people count lies between 1 and 10 inclusive. */
  predicate PeopleAccepted(people: int) {
    PeopleMin <= people <= PeopleMax
  }

  predicate Accepted(f: FormFields) {
    TitleAccepted(f.title) && DescriptionAccepted(f.description) && PeopleAccepted(f.people)
  }

  /** The title's rule set: required, at most 20 characters. It accepts a
      title that is not blank and at most 20 characters long, and nothing
      else. */
  function TitleRule(title: string): (rule: Validatable)
    ensures rule.value == Str(title)
    ensures Validate(rule) <==> TitleAccepted(title)
  {
    Validatable(Str(title), true, None, Some(TitleMaxLength), None, None)
  }

  /** The description's rule set: required, at least 5 characters. */
  function DescriptionRule(description: string): (rule: Validatable)
    ensures rule.value == Str(description)
    ensures Validate(rule) <==> DescriptionAccepted(description)
  {
    Validatable(Str(description), true, Some(DescriptionMinLength), None, None, None)
  }

  /** The people rule set: required, between 1 and 10. */
  function PeopleRule(people: int): (rule: Validatable)
    ensures rule.value == Num(people)
    ensures Validate(rule) <==> PeopleAccepted(people)
  {
    Validatable(Num(people), true, None, None, Some(PeopleMin), Some(PeopleMax))
  }

  /** `gatherUserInput`: the fields, unchanged, exactly when all three rule
      sets pass; nothing otherwise. */
  function GatherUserInput(f: FormFields): (r: Option<UserInput>)
    ensures r.Some? <==> Accepted(f)
    ensures r.Some? ==> r.value == UserInput(f.title, f.description, f.people)
  {
    if !Validate(TitleRule(f.title))
       || !Validate(DescriptionRule(f.description))
       || !Validate(PeopleRule(f.people))
    then None
    else Some(UserInput(f.title, f.description, f.people))
  }

  /** `clearInputs`: all three fields set to the empty string, whose numeric
      value `+""` is 0. Cleared fields never pass the rule sets, so a second
      submit without editing adds nothing. */
  function ClearInputs(f: FormFields): (r: FormFields)
    ensures r.title == "" && r.description == "" && r.people == 0
    ensures !Accepted(r)
  {
    FormFields("", "", 0)
  }

  /** The result of a submission: the store, the notifications it sent and
      the input fields afterwards. */
  datatype Submission = Submission(store: Store, trace: seq<Notification>, fields: FormFields)

  /** `submitHandler`: adds a project with the gathered values and clears the
      fields when the input is accepted; otherwise changes nothing. `newId`
      stands for the id `addProject` draws. */
  function SubmitHandler(s: Store, f: FormFields, newId: string): (r: Submission)
    ensures r.store.listeners == s.listeners
    ensures Accepted(f) ==>
              && |r.store.projects| == |s.projects| + 1
              && r.store.projects[..|s.projects|] == s.projects
              && r.store.projects[|s.projects|] == Project(newId, f.title, f.description, f.people, Active)
              && IsRound(r.trace, s.listeners, r.store.projects)
              && r.fields == ClearInputs(f)
    ensures !Accepted(f) ==> r == Submission(s, [], f)
  {
    match GatherUserInput(f)
    case Some(input) =>
      var step := AddProject(s, newId, input.title, input.description, input.people);
      Submission(step.store, step.trace, ClearInputs(f))
    case None =>
      Submission(s, [], f)
  }
}

=== FILE: project_item.dfy ===
/** The `persons` label of `ProjectItem` in src/app.ts. */
module ProjectItem {
  import opened Optional
  import opened JsText

  const Singular := "1 person"
  const PluralSuffix := " people"

  /** "1 person" for exactly one person; otherwise the count followed by
      " people", where the count is written in canonical decimal (a minus
      sign exactly for a negative count, no leading zero) and reads back as
      `people`. */
  function Persons(people: int): (r: string)
    ensures r == Singular <==> people == 1
    ensures people != 1 ==>
              && |r| > |PluralSuffix|
              && r[|r| - |PluralSuffix|..] == PluralSuffix
              && IsCanonicalDecimal(r[..|r| - |PluralSuffix|])
              && (r[0] == '-' <==> people < 0)
              && ParseInt(r[..|r| - |PluralSuffix|]) == Some(people)
  {
    if people == 1 then
      Singular
    else
      var count := IntToString(people);
      var r := count + PluralSuffix;
      assert r[..|r| - |PluralSuffix|] == count;
      assert r[|r| - 1] == 'e';
      r
  }
}

=== FILE: project_list.dfy ===
/** The list views of src/components/project-list.ts: each list keeps the
    projects of one status, refreshed wholesale by every notification, and
    turns a drop into a status change request. */
module ProjectList {
  import opened ProjectModel
  import opened ProjectState

  /** The list's `type`: `"active" | "finished"`. */
  datatype ListType = ActiveList | FinishedList

  /** The view's state: its type and its `assignedProjects`. */
  datatype ListView = ListView(kind: ListType, assignedProjects: seq<Project>)

  /** The filter callback of the registered listener. A list keeps a project
      exactly when the project has the status a drop on that list requests. */
  function Keeps(kind: ListType, p: Project): (keep: bool)
    ensures keep <==> p.status == StatusFor(kind)
  {
    if kind == ActiveList then p.status == Active else p.status == Finished
  }

  /** The status the drop handler requests for a list type. */
  function StatusFor(kind: ListType): (st: Status)
    ensures kind == ActiveList ==> st == Active
    ensures kind == FinishedList ==> st == Finished
  {
    if kind == ActiveList then Active else Finished
  }

  /** Every project is kept by exactly one of the two lists. */
  lemma KeptByExactlyOneList(p: Project)
    ensures Keeps(ActiveList, p) != Keeps(FinishedList, p)
  {
  }

  /** `a` is `b` with some elements left out, the rest in their order. */
  predicate IsSubsequence<T(==)>(a: seq<T>, b: seq<T>) {
    if |b| == 0 then |a| == 0
    else IsSubsequence(a, b[1..]) || (|a| > 0 && a[0] == b[0] && IsSubsequence(a[1..], b[1..]))
  }

  /** `projects.filter(...)` with the list's callback. */
  function Relevant(snapshot: seq<Project>, kind: ListType): (r: seq<Project>)
    ensures forall p :: p in r <==> p in snapshot && Keeps(kind, p)
    ensures |r| <= |snapshot|
  {
    if |snapshot| == 0 then []
    else if Keeps(kind, snapshot[0]) then [snapshot[0]] + Relevant(snapshot[1..], kind)
    else Relevant(snapshot[1..], kind)
  }

  /** The filtered list keeps the snapshot's order. */
  lemma {:induction false} RelevantIsSubsequence(snapshot: seq<Project>, kind: ListType)
    ensures IsSubsequence(Relevant(snapshot, kind), snapshot)
  {
    if |snapshot| > 0 {
      RelevantIsSubsequence(snapshot[1..], kind);
      var r := Relevant(snapshot, kind);
      if Keeps(kind, snapshot[0]) {
        assert r[1..] == Relevant(snapshot[1..], kind);
      }
    }
  }

  /** Filtering a sequence with one more element at the end. */
  lemma {:induction false} RelevantAppend(ps: seq<Project>, p: Project, kind: ListType)
    ensures Relevant(ps + [p], kind) == Relevant(ps, kind) + (if Keeps(kind, p) then [p] else [])
  {
    if |ps| == 0 {
      assert ps + [p] == [p];
    } else {
      assert (ps + [p])[1..] == ps[1..] + [p];
      RelevantAppend(ps[1..], p, kind);
    }
  }

  /** The filter keeps every occurrence of a project it keeps and none of a
      project it drops. */
  lemma {:induction false} RelevantCounts(snapshot: seq<Project>, kind: ListType)
    ensures forall p :: multiset(Relevant(snapshot, kind))[p] == if Keeps(kind, p) then multiset(snapshot)[p] else 0
  {
    if |snapshot| > 0 {
      RelevantCounts(snapshot[1..], kind);
      assert snapshot == [snapshot[0]] + snapshot[1..];
    }
  }

  /** The active and the finished views of one snapshot partition it: every
      occurrence of a project lands in exactly one of them. */
  lemma {:induction false} RelevantPartitions(snapshot: seq<Project>)
    ensures multiset(Relevant(snapshot, ActiveList)) + multiset(Relevant(snapshot, FinishedList))
            == multiset(snapshot)
    ensures |Relevant(snapshot, ActiveList)| + |Relevant(snapshot, FinishedList)| == |snapshot|
  {
    if |snapshot| > 0 {
      RelevantPartitions(snapshot[1..]);
      assert snapshot == [snapshot[0]] + snapshot[1..];
    }
  }

  /** A newly constructed list shows nothing. */
  function NewProjectList(kind: ListType): (v: ListView)
    ensures v.kind == kind && |v.assignedProjects| == 0
  {
    ListView(kind, [])
  }

  /** The registered listener: replaces `assignedProjects` with the relevant
      entries of the snapshot, in the snapshot's order. Nothing of the previous list survives unless
      the snapshot holds it too. */
  function Receive(v: ListView, snapshot: seq<Project>): (r: ListView)
    ensures r.kind == v.kind
    ensures forall p :: p in r.assignedProjects <==> p in snapshot && p.status == StatusFor(v.kind)
    ensures IsSubsequence(r.assignedProjects, snapshot)
    ensures forall p :: multiset(r.assignedProjects)[p]
                        == if p.status == StatusFor(v.kind) then multiset(snapshot)[p] else 0
  {
    RelevantIsSubsequence(snapshot, v.kind);
    RelevantCounts(snapshot, v.kind);
    ListView(v.kind, Relevant(snapshot, v.kind))
  }

  /** What a list shows after a notification depends on the snapshot alone. */
  lemma ReceiveForgetsPrevious(v1: ListView, v2: ListView, snapshot: seq<Project>)
    requires v1.kind == v2.kind
    ensures Receive(v1, snapshot) == Receive(v2, snapshot)
    ensures Receive(Receive(v1, snapshot), snapshot) == Receive(v1, snapshot)
  {
  }

  /** `dropHandler`: asks the store to move the dragged project to the list's
      status. When the dragged id exists, the project it names ends up with
      that status and hence among the projects this list keeps. */
  function Drop(s: Store, kind: ListType, draggedId: string): (r: Step)
    ensures r == MoveProject(s, draggedId, StatusFor(kind))
    ensures forall i | IsFirstWithId(s.projects, draggedId, i) ::
              r.store.projects[i] in Relevant(r.store.projects, kind)
  {
    var r := MoveProject(s, draggedId, StatusFor(kind));
    forall i | IsFirstWithId(s.projects, draggedId, i)
      ensures r.store.projects[i] in Relevant(r.store.projects, kind)
    {
      MovedSnapshotHasNewStatus(s, draggedId, StatusFor(kind), i);
    }
    r
  }
}

=== FILE: project_model.dfy ===
/** The record types of src/models/project.ts. */
module ProjectModel {

  /** `ProjectStatus`: a TypeScript numeric enum with the two members below. */
  datatype Status = Active | Finished

  /** A tracked project. The id is an opaque string; the store never checks it
      for uniqueness. The people count is a number in the source; the model
      keeps it as an integer. */
  datatype Project = Project(
    id: string,
    title: string,
    description: string,
    people: int,
    status: Status)
}

=== FILE: project_state.dfy ===
/** The project store of src/state/project-state.ts: an ordered sequence of
    projects and an ordered sequence of listeners, with operations that
    return the new store together with the notifications they send. */
module ProjectState {
  import opened Optional
  import opened ProjectModel

  /** A registered listener. The source registers closures; the model names
      each one by an identifier chosen by whoever registers it. */
  type ListenerId = nat

  /** One call `listenerFn(projects.slice())`: the listener called and the
      copy of the project sequence it receives. */
  datatype Notification = Notification(listener: ListenerId, snapshot: seq<Project>)

  datatype Store = Store(projects: seq<Project>, listeners: seq<ListenerId>)

  /** The store as the private constructor leaves it. */
  const EmptyStore := Store([], [])

  /** The result of an operation: the new store and the notifications sent,
      in the order they were sent. */
  datatype Step = Step(store: Store, trace: seq<Notification>)

  /** `trace` is one notification round: every listener of `listeners`, in
      registration order, called once with `snapshot`. */
  predicate IsRound(trace: seq<Notification>, listeners: seq<ListenerId>, snapshot: seq<Project>) {
    && |trace| == |listeners|
    && forall i | 0 <= i < |trace| :: trace[i] == Notification(listeners[i], snapshot)
  }

  /** `i` is the position of the first project whose id is `id`. */
  predicate IsFirstWithId(projects: seq<Project>, id: string, i: int) {
    && 0 <= i < |projects|
    && projects[i].id == id
    && forall j | 0 <= j < i :: projects[j].id != id
  }

  /** No project has id `id`. */
  predicate NoneWithId(projects: seq<Project>, id: string) {
    forall j | 0 <= j < |projects| :: projects[j].id != id
  }

  /** `State.addListener`: appends, with no de-duplication. Projects are
      untouched and nobody is notified. */
  function AddListener(s: Store, listener: ListenerId): (r: Step)
    ensures r.store.projects == s.projects
    ensures |r.store.listeners| == |s.listeners| + 1
    ensures r.store.listeners[..|s.listeners|] == s.listeners
    ensures r.store.listeners[|s.listeners|] == listener
    ensures r.trace == []
  {
    Step(Store(s.projects, s.listeners + [listener]), [])
  }

  /** `updateListeners`: calls every listener in registration order with a
      copy of the current projects. */
  function UpdateListeners(listeners: seq<ListenerId>, projects: seq<Project>): (trace: seq<Notification>)
    ensures IsRound(trace, listeners, projects)
  {
    if |listeners| == 0 then []
    else [Notification(listeners[0], projects)] + UpdateListeners(listeners[1..], projects)
  }

  /** `projects.find(proj => proj.id === projectID)`, as a position: the
      first project with that id, or `None` when no project has it. */
  function FindFirst(projects: seq<Project>, id: string): (r: Option<nat>)
    ensures r.Some? <==> !NoneWithId(projects, id)
    ensures r.Some? ==> IsFirstWithId(projects, id, r.value)
  {
    if |projects| == 0 then None
    else if projects[0].id == id then Some(0)
    else
      match FindFirst(projects[1..], id)
      case None => None
      case Some(k) => Some(k + 1)
  }

  /** `addProject`: appends a new `Active` project carrying the given fields
      and sends one notification round with the grown sequence. The id comes
      from the caller (the source draws a random one). */
  function AddProject(s: Store, id: string, title: string, description: string, people: int): (r: Step)
    ensures r.store.listeners == s.listeners
    ensures |r.store.projects| == |s.projects| + 1
    ensures r.store.projects[..|s.projects|] == s.projects
    ensures r.store.projects[|s.projects|] == Project(id, title, description, people, Active)
    ensures IsRound(r.trace, s.listeners, r.store.projects)
  {
    var projects := s.projects + [Project(id, title, description, people, Active)];
    Step(Store(projects, s.listeners), UpdateListeners(s.listeners, projects))
  }

  /** `moveProject`: finds the first project with the id; when there is one
      and its status differs, sets that status and sends one notification
      round. Otherwise nothing changes and nobody is notified. */
  function MoveProject(s: Store, id: string, newStatus: Status): (r: Step)
    ensures r.store.listeners == s.listeners
    ensures NoneWithId(s.projects, id) ==> r == Step(s, [])
    ensures forall i | IsFirstWithId(s.projects, id, i) && s.projects[i].status == newStatus ::
              r == Step(s, [])
    ensures forall i | IsFirstWithId(s.projects, id, i) && s.projects[i].status != newStatus ::
              && |r.store.projects| == |s.projects|
              && r.store.projects[i] == s.projects[i].(status := newStatus)
              && (forall j | 0 <= j < |s.projects| && j != i :: r.store.projects[j] == s.projects[j])
              && IsRound(r.trace, s.listeners, r.store.projects)
  {
    match FindFirst(s.projects, id)
    case None => Step(s, [])
    case Some(i) =>
      if s.projects[i].status != newStatus then
        var projects := s.projects[i := s.projects[i].(status := newStatus)];
        Step(Store(projects, s.listeners), UpdateListeners(s.listeners, projects))
      else
        Step(s, [])
  }

  /** `moveProject` notifies exactly when it changes the store, and a change
      is exactly "the first project with that id now has the new status". */
  lemma MoveNotifiesIffChanged(s: Store, id: string, newStatus: Status)
    ensures var r := MoveProject(s, id, newStatus);
      r.store != s <==> exists i :: IsFirstWithId(s.projects, id, i) && s.projects[i].status != newStatus
    ensures var r := MoveProject(s, id, newStatus);
      r.store == s ==> r.trace == []
  {
  }

  /** After a move of an existing project, its entry in every snapshot sent
      has the requested status. */
  lemma MovedSnapshotHasNewStatus(s: Store, id: string, newStatus: Status, i: nat)
    requires IsFirstWithId(s.projects, id, i)
    ensures var r := MoveProject(s, id, newStatus);
      && r.store.projects[i].status == newStatus
      && forall n | n in r.trace :: n.snapshot == r.store.projects
  {
  }

  /** The process-wide holder of the single `ProjectState` instance. */
  datatype Registry = Registry(instance: Option<Store>)

  /** `getInstance`: the held instance, created empty on the first call. */
  function GetInstance(reg: Registry): (r: (Registry, Store))
    ensures r.0.instance == Some(r.1)
    ensures reg.instance.Some? ==> r == (reg, reg.instance.value)
    ensures reg.instance.None? ==> r.1 == EmptyStore
  {
    match reg.instance
    case Some(store) => (reg, store)
    case None => (Registry(Some(EmptyStore)), EmptyStore)
  }

  /** Calling `getInstance` again returns the same instance and changes
      nothing. */
  lemma GetInstanceIdempotent(reg: Registry)
    ensures var (reg1, first) := GetInstance(reg);
      GetInstance(reg1) == (reg1, first)
  {
  }
}

=== FILE: validation.dfy ===
/** The `validate` function of src/app.ts (and of the validation utility the
    form component imports): a value together with optional constraints, and
    the check that every constraint applying to the value holds. */
module Validation {
  import opened Optional
  import opened JsText

  /** The `string | number` value being validated. Numbers are integers here. */
  datatype Value = Str(s: string) | Num(n: int)

  /** `value.toString()`. */
  function ToStr(v: Value): string {
    match v
    case Str(s) => s
    case Num(n) => IntToString(n)
  }

  /** `Validatable`: an unset optional field (`undefined`) is `None`; an unset
      `required` is `false`. */
  datatype Validatable = Validatable(
    value: Value,
    required: bool,
    minLength: Option<int>,
    maxLength: Option<int>,
    min: Option<int>,
    max: Option<int>)

  /** A validatable with no constraint set. */
  function Unconstrained(value: Value): Validatable {
    Validatable(value, false, None, None, None, None)
  }

  /** `validate`, one step per `if` of the source: a flag that starts `true`
      and is and-ed with each check whose guard holds. It accepts exactly the
      values that satisfy every applicable constraint. */
  function Validate(v: Validatable): (ok: bool)
    ensures ok <==> Satisfies(v)
  {
    var afterRequired :=
      if v.required then Utf16Length(Trim(ToStr(v.value))) != 0 else true;
    var afterMinLength :=
      if v.minLength.Some? && v.value.Str?
      then afterRequired && Utf16Length(v.value.s) >= v.minLength.value
      else afterRequired;
    var afterMaxLength :=
      if v.maxLength.Some? && v.value.Str?
      then afterMinLength && Utf16Length(v.value.s) <= v.maxLength.value
      else afterMinLength;
    var afterMin :=
      if v.min.Some? && v.value.Num?
      then afterMaxLength && v.value.n >= v.min.value
      else afterMaxLength;
    var afterMax :=
      if v.max.Some? && v.value.Num?
      then afterMin && v.value.n <= v.max.value
      else afterMin;
    afterMax
  }

  /** What a valid value is, constraint by constraint: a required value is
      not blank; length bounds are inclusive and apply to strings only (to the
      untrimmed string); numeric bounds are inclusive and apply to numbers
      only. */
  predicate Satisfies(v: Validatable) {
    && (v.required ==> !IsBlank(ToStr(v.value)))
    && (v.minLength.Some? && v.value.Str? ==> Utf16Length(v.value.s) >= v.minLength.value)
    && (v.maxLength.Some? && v.value.Str? ==> Utf16Length(v.value.s) <= v.maxLength.value)
    && (v.min.Some? && v.value.Num? ==> v.value.n >= v.min.value)
    && (v.max.Some? && v.value.Num? ==> v.value.n <= v.max.value)
  }

  /** With no constraint set every value is valid. */
  lemma UnconstrainedIsValid(value: Value)
    ensures Validate(Unconstrained(value))
  {
  }

  /** `required` rejects a string that is blank after trimming, whitespace
      only included, and nothing else: on a non-blank string or a number it
      leaves the verdict to the other constraints. */
  lemma RequiredRejectsExactlyBlank(v: Validatable)
    requires v.required
    ensures v.value.Str? && IsBlank(v.value.s) ==> !Validate(v)
    ensures v.value.Str? && !IsBlank(v.value.s) ==> Validate(v) == Validate(v.(required := false))
    ensures v.value.Num? ==> Validate(v) == Validate(v.(required := false))
  {
  }

  /** `v2` carries every constraint of `v1`, on the same value, each at least
      as strict. */
  predicate Tightens(v2: Validatable, v1: Validatable) {
    && v2.value == v1.value
    && (v1.required ==> v2.required)
    && (v1.minLength.Some? ==> v2.minLength.Some? && v2.minLength.value >= v1.minLength.value)
    && (v1.maxLength.Some? ==> v2.maxLength.Some? && v2.maxLength.value <= v1.maxLength.value)
    && (v1.min.Some? ==> v2.min.Some? && v2.min.value >= v1.min.value)
    && (v1.max.Some? ==> v2.max.Some? && v2.max.value <= v1.max.value)
  }

  /** Adding or tightening constraints never turns a rejection into an
      acceptance. */
  lemma TighteningNeverAccepts(v1: Validatable, v2: Validatable)
    requires Tightens(v2, v1)
    ensures Validate(v2) ==> Validate(v1)
  {
  }
}
